=== FILE: README.md ===
# ghctrl: the controller-to-MIDI core, modelled in Dafny

ghctrl turns a Guitar Hero guitar plugged into a Wii remote into a MIDI
instrument. On every poll of the remote, the driver does five things:
- it decodes the extension's raw key and axis bytes into a guitar state (`wiimote_to_ghc`);
- it moves a pitch offset up or down by one on a newly pressed plus or minus (`update_ghc_midi_state`);
- it compares the new state with the previous one and writes 3-byte MIDI messages (`send_midi_events` with `emit_note_on`, `emit_note_off` and `emit_pitch_bend`), tracking the last pitch it sounded (`last_pitch`);
- it mirrors the fret buttons on the remote's LEDs and rumble motor (`send_wiimote_events`);
- it copies the new state into `prev` for the next poll.

The model makes that frame a pure function, `Driver.Step(raw, prev, lastPitch)`. `Driver.Run` folds it over a finite sequence of raw readings, starting from the zeroed state `main` sets up. `Driver.MainLoop` is the loop as the source writes it, with separate `cur` and `prev` variables, and is proved to compute the same thing as `Run`.

Modules:
- `Bytes`: the C integer widths (`unsigned char`, `uint16_t`, `int8_t`), the conversions C applies when storing an `int` into one of them, and the little-endian byte view of a `uint16_t`.
- `Guitar`: the raw reading, `guitar_buttons_t` and `guitar_t`, the decoder and the pitch-offset update.
- `Midi`: the message payloads, the kind of message their status byte and velocity announce, and when their data bytes are valid MIDI 1.0 data bytes (below 0x80). Note On is status `0x90` and Pitch Bend is `0xE0`. A Note On at velocity 0 counts as a Note Off.
- `Emitter`: `send_midi_events`.
- `Driver`: the LED mirror, the frame step, the loop as a fold, and the loop as a method.
- `Scenarios`: worked runs of the loop on concrete readings.

Modelling assumptions:
- Bit-field layout. The one-bit fields of `guitar_buttons_t` are assumed to be laid out from the least significant bit, green in bit 0 through strum_down in bit 6. So `bits & 0x1F` is the five fret buttons as a binary number. Bit 7 belongs to no field; `main` zeroes it and nothing writes it, so it is 0.
- Byte order. The machine is assumed little-endian, so the union in `emit_pitch_bend` gives the low-order byte of the bend value first.
- `int8_t` wrap. Incrementing `pitch_offset` past 127 or decrementing it past -128 wraps around in two's complement, as GCC and Clang do. C leaves this implementation-defined.
- Stores into `unsigned char` and `uint16_t` are reductions modulo 2^8 and 2^16, as C defines them.
- Field widths from the wiimote library. `keys.bits`, `axis.y` and `axis.z` are taken to be 8-bit unsigned values. The types of these fields come from the wiimote library's header, which is not part of this model.

The note tracking is modelled as written. `last_pitch` holds the pitch of the latest Note On, and a strum-down release turns off that pitch. Over any run, Note Ons equal Note Offs in number when strum-down is released, and there is one more Note On while it is held. The pitches need not match: a strum-up pluck while strum-down is held moves `last_pitch` to the plucked pitch, so the later release turns off the plucked pitch, and the held note gets no Note Off. `Emitter.PluckRetargetsRelease` states this for any states, and `Scenarios.StrandedNoteScenario` shows it on a concrete run.

## Model

| member | source | states |
|---|---|---|
| Guitar.Decode | src/ghctrl.c:97-111 | Each fret is one named bit of the key byte: green bit 4, red bit 6, yellow bit 3, blue bit 5, orange bit 7. Strum-up is `keys.z`. Strum-down holds exactly when `axis.z` is 191. Minus and plus are pressed exactly when bits 4 and 2 of `axis.z` are clear. The whammy plus 240 is `axis.y` modulo 256. The pitch offset is the one the state already had. |
| Guitar.DecodeIgnoresPrior | src/ghctrl.c:97-111 | The decoded buttons and whammy depend on the reading alone. Only the pitch offset comes from the state decoded into. |
| Guitar.DecodeEncode | src/ghctrl.c:99-110 | Every button combination in which strum-down does not come with minus or plus is produced by some reading, with any whammy value. With `Decode`'s own guarantee, the decoder's image is exactly those combinations. |
| Guitar.DecodeStrumDown | src/ghctrl.c:107-110 | The reading with `axis.z` 191, `axis.y` 240 and no keys decodes to strum-down alone with the whammy at 0. |
| Guitar.DecodeAtRest | src/ghctrl.c:107-110 | The reading with `axis.z` 0x14, `axis.y` 240 and no keys decodes to nothing pressed. |
| Guitar.UpdatePitchOffset | src/ghctrl.c:113-121 | A plus press alone raises the offset by one, wrapping from 127 to -128. A minus press alone lowers it by one, wrapping from -128 to 127. Both presses together, or neither, leave it unchanged. Buttons and whammy never change. |
| Guitar.UpdatePitchOffsetNet | src/ghctrl.c:115-120 | The two sequential wrapping updates equal one wrap of the offset plus the net edge count. This includes the frame at 127 where plus wraps to -128 and minus wraps back. |
| Guitar.NextOffsetAbsorbs | src/ghctrl.c:116-119 | Updating an already wrapped count equals wrapping the count plus the frame's edges. |
| Bytes.ToInt8Absorbs | src/ghctrl.c:116-119 | Storing into `int8_t` between two additions does not change the final stored value. |
| Bytes.ToInt8Unique | src/ghctrl.c:94 | The `int8_t` a value is stored as is the only value in [-128, 128) congruent to it modulo 256. |
| Bytes.ToByteCongruent | src/ghctrl.c:150-151 | The stored `unsigned char` is congruent to the value modulo 256, and it is the only byte that is. |
| Bytes.ToByteAbsorbs | src/ghctrl.c:150-151 | Storing into `unsigned char` between two additions does not change the final stored byte. |
| Bytes.LittleEndian | src/ghctrl.c:179-188 | The two bytes of the bend value, low-order first, read back as the value. |
| Bytes.LittleEndianInjective | src/ghctrl.c:179-188 | Two bend values have the same byte pair exactly when they are equal. |
| Midi.ButtonBits | src/ghctrl.c:74-89 | The button byte is below 0x80: bit 7 belongs to no field and stays 0. |
| Midi.Frets | src/ghctrl.c:150 | `bits & 0x1F` is below 0x20. |
| Midi.FretsAreFretButtons | src/ghctrl.c:74-89 | Under the layout assumption, `bits & 0x1F` is green + 2·red + 4·yellow + 8·blue + 16·orange. The strum bits never reach it. |
| Midi.NotePitchOneWrap | src/ghctrl.c:147-151 | The pitch byte after its two stores into `unsigned char` is (0x3c + frets + 12·offset) modulo 256. |
| Midi.NotePitchIgnoresStrum | src/ghctrl.c:150 | States that agree on frets and offset give the same pitch, whatever the strum bits, minus, plus and whammy. |
| Midi.NotePitchDeterminesFrets | src/ghctrl.c:150-151 | At a fixed offset, two states give the same pitch exactly when they have the same fret mask. |
| Midi.NotePitchExamples | src/ghctrl.c:147-151 | Green alone gives pitch 0x3d at offset 0 and 0x49 at offset 1. |
| Midi.NotePitchRange | src/ghctrl.c:147-151 | For offsets -5 to 3, the pitch is the unwrapped sum and a valid 7-bit key. At offset 4, every chord whose mask is 20 or more leaves the 7-bit range. |
| Midi.NoteOn | src/ghctrl.c:144-159 | The Note On is status 0x90, the note pitch and velocity 64, so its status byte and velocity announce a Note On. |
| Midi.NoteOff | src/ghctrl.c:161-174 | The Note Off is status 0x90, `last_pitch` and velocity 0, so its status byte and velocity announce a Note Off. |
| Midi.BendValueClosedForm | src/ghctrl.c:183-186 | The 16-bit bend value is 1024·((whammy + 16) mod 64): the wrap-around repeats every 64 whammy steps. |
| Midi.PitchBend | src/ghctrl.c:176-192 | The Pitch Bend's two data bytes, low-order first, read back as the bend value. Its status byte announces a Pitch Bend. |
| Midi.NoteOnValid | src/ghctrl.c:147-153 | The Note On's data bytes are valid MIDI data bytes exactly when the pitch is below 0x80. |
| Midi.NoteOffValid | src/ghctrl.c:165-168 | The Note Off's data bytes are valid exactly when `last_pitch` is below 0x80. |
| Midi.PitchBendValid | src/ghctrl.c:183-188 | The Pitch Bend's data bytes are valid exactly when (whammy + 16) mod 64 < 32. |
| Midi.InvalidDataBytes | src/ghctrl.c:147-188 | Yellow and orange at offset 4 send `90 80 40`, and whammy 16 sends `E0 00 80`. Each announces its kind by status byte and velocity, but a data byte is 0x80 and so is not valid. |
| Midi.PitchBendBytes | src/ghctrl.c:183-188 | The first data byte is always 0. The second is (0x40 + 4·whammy) modulo 256, which equals 4·((whammy + 16) mod 64). |
| Midi.PitchBendCentre | src/ghctrl.c:183-188 | Whammy 0 sends `E0 00 40`, the MIDI no-bend value. |
| Midi.PitchBendSevenBit | src/ghctrl.c:186-188 | The second data byte is below 0x80 exactly when (whammy + 16) mod 64 < 32. It is below 0x80 for whammy 0 to 15 and at least 0x80 for 16 to 47. |
| Midi.PitchBendCollisions | src/ghctrl.c:186-188 | Two whammy values send the same message exactly when they agree modulo 64. |
| Emitter.StrumDownEvents | src/ghctrl.c:203-211 | A strum-down press sends exactly `NoteOn(cur)`, and `last_pitch` becomes its pitch. A release sends exactly a Note Off for the incoming `last_pitch`. No change sends nothing. No Pitch Bend is ever sent. |
| Emitter.StrumUpEvents | src/ghctrl.c:213-220 | A strum-up press sends a Note On for the current chord, immediately followed by a Note Off for the same pitch. A release or hold sends nothing and leaves `last_pitch` unchanged. |
| Emitter.WhammyEvents | src/ghctrl.c:222-224 | One Pitch Bend is sent exactly when the whammy changed. No notes are sent. |
| Emitter.SendMidiEvents | src/ghctrl.c:194-225 | A frame sends at most four messages. |
| Emitter.SendMidiEventsCounts | src/ghctrl.c:194-225 | A frame sends one Note On per strum-down or strum-up press, one Note Off per strum-down release or strum-up press, and one Pitch Bend per whammy change. It sends no other message. |
| Emitter.SendMidiEventsOrder | src/ghctrl.c:194-225 | The strum-down message comes first, then the strum-up pair, then the Pitch Bend last. Every Note On is for the current chord and every Pitch Bend is for the current whammy. A frame is silent exactly when strum-down did not change, strum-up was not pressed and the whammy held still. |
| Emitter.SendMidiEventsPitches | src/ghctrl.c:194-225 | Every Note Off in a frame carries the pitch of the latest Note On before it, or the incoming `last_pitch` if there is none. Afterwards `last_pitch` is the pitch of the frame's last Note On, or the incoming one if the frame sent no Note On. |
| Emitter.StrumDownOnly | src/ghctrl.c:203-208 | When only strum-down changed, the frame sends exactly that Note On or Note Off. |
| Emitter.PluckOnly | src/ghctrl.c:213-216 | When only strum-up was pressed, the frame sends exactly the Note On and the Note Off for the current chord, and `last_pitch` becomes that chord's pitch. |
| Emitter.PluckRetargetsRelease | src/ghctrl.c:203-216 | While strum-down is held, a strum-up pluck sets `last_pitch` to the plucked pitch. The next strum-down release then sends its Note Off for the plucked pitch, not the held one. |
| Driver.MirrorLedsShowFrets | src/ghctrl.c:227-234 | The LED pattern, read as a binary number, is the fret mask the next Note On adds to middle C. |
| Driver.MirrorLedsOnlyFrets | src/ghctrl.c:227-234 | Two states show the same LEDs exactly when they have the same fret mask. Strum, minus, plus, whammy and offset play no part. |
| Driver.MirrorLedsOfReading | src/ghctrl.c:229-233 | The LEDs show the key-byte bits the decoder takes the frets from. |
| Driver.Step | src/ghctrl.c:249-259 | One frame: the new buttons and whammy are the reading's, the offset moves by the frame's net edges and wraps once, and the LEDs mirror the new state. It sends at most four messages. Each Note Off carries the pitch of the latest Note On before it, and `last_pitch` afterwards is the pitch of the frame's last Note On, or the incoming `last_pitch` if the frame sent no Note On. |
| Driver.Run | src/ghctrl.c:246-260 | Starting from the zeroed state, there is one LED output per reading, and `cur` equals `prev` after every frame. |
| Driver.RunHoldsLastReading | src/ghctrl.c:259 | After any frames, `prev` holds the buttons and whammy of the last reading, or the zeroed ones before the first. |
| Driver.RunOffsetAfter | src/ghctrl.c:251-252 | The loop's offset is the fold of the one-frame offset update over the readings. |
| Driver.OffsetAfterNet | src/ghctrl.c:115-120 | That fold equals the net number of plus presses minus minus presses, wrapped once into `int8_t`. |
| Driver.RunPitchOffset | src/ghctrl.c:246-260 | After any frames, the pitch offset is (plus presses − minus presses) wrapped once into `int8_t`. |
| Driver.RunNoteBalance | src/ghctrl.c:203-216 | Over any run, Note Ons outnumber Note Offs by exactly one while strum-down is held, and equal them otherwise. This balances the counts, not the pitches. |
| Driver.RunPitchBends | src/ghctrl.c:222-224 | Over any run, there is exactly one Pitch Bend per frame in which the whammy moved. |
| Driver.RunPitchTracking | src/ghctrl.c:142-165 | Over any run, every Note Off carries the pitch of the latest Note On before it, or middle C before the first. `last_pitch` is the latest Note On's pitch, or middle C before the first. |
| Driver.RunLeds | src/ghctrl.c:229-233 | Every frame's LEDs show that frame's fret bits, whatever came before. |
| Driver.RunExtend | src/ghctrl.c:249-259 | When a run is known to end in a given state, one more reading appends that reading's frame messages to the output and its LEDs to the LED trace, and leaves the frame's state. |
| Driver.MainLoop | src/ghctrl.c:240-260 | The loop as written gives the same state, output and LEDs as `Run`, with `prev` equal to `cur`. Note Ons equal Note Offs when strum-down is released, and there is one more Note On while it is held. Every Note Off carries the pitch of the latest Note On before it. The offset is the net presses wrapped once. |
| Scenarios.PressFrame | src/ghctrl.c:203-204 | From rest, pressing strum-down alone sends `90 3c 40`, a Note On for middle C at velocity 64, and sets `last_pitch` to middle C. |
| Scenarios.ReleaseFrame | src/ghctrl.c:206-207 | Releasing the held strum-down sends `90 3c 00`, a Note Off for middle C. |
| Scenarios.PressRun | src/ghctrl.c:246-260 | After the strum-down reading alone, the loop holds strum-down, `last_pitch` is middle C, and `90 3c 40` has been written. |
| Scenarios.StrumDownScenario | src/ghctrl.c:203-208 | Press then release strum-down with no fret: the output is exactly `90 3c 40`, then `90 3c 00`, and the loop is back at rest with `last_pitch` at middle C. |
| Scenarios.GreenDownFrame | src/ghctrl.c:144-159 | From rest, green on strum-down sends `90 3d 40` and sets `last_pitch` to 0x3d. |
| Scenarios.RedPluckFrame | src/ghctrl.c:213-216 | With green held on strum-down, plucking red with strum-up sends `90 3e 40` then `90 3e 00`, and moves `last_pitch` to 0x3e. |
| Scenarios.PluckReleaseFrame | src/ghctrl.c:206-207 | Letting everything go after that pluck sends `90 3e 00`: the Note Off is for the plucked pitch. |
| Scenarios.GreenDownRun | src/ghctrl.c:246-260 | After the green strum-down reading alone, `last_pitch` is 0x3d and `90 3d 40` has been written. |
| Scenarios.RedPluckRun | src/ghctrl.c:246-260 | After the green strum-down and red pluck readings, `last_pitch` is 0x3e and the output is the two frames' messages in order. |
| Scenarios.StrandedNoteScenario | src/ghctrl.c:203-216 | Hold green on strum-down, pluck red, let go: the output is exactly `90 3d 40`, `90 3e 40`, `90 3e 00`, `90 3e 00`. 0x3d gets no Note Off, although with strum-down released the Note On and Note Off counts are equal. |

Three functions carry no contract of their own; lemmas state what they promise:
- `Driver.MirrorLeds`: `Driver.MirrorLedsShowFrets` and `Driver.MirrorLedsOnlyFrets`.
- `Midi.NotePitch`: `Midi.NotePitchOneWrap` and `Midi.NotePitchRange`.
- `Midi.BendValue`: `Midi.BendValueClosedForm`.

## Left out

- The wiimote, and the library calls that connect, poll and close it (`init_wiimote`, `wiimote_update`, `wiimote_close`): foreign I/O. The readings it delivers are the `frames` parameter.
- `wiimote_is_open` as the loop condition: the model runs over a finite sequence of readings, standing for the time the remote stays connected.
- `snd_rawmidi_open` and `snd_rawmidi_write`: foreign I/O. A write is modelled as appending the 3-byte message to the output sequence, and the byte count it returns is ignored, as the code only prints it.
- `printf` traces and `dump_controller_state`: logging only.
- Command-line parsing, `exit_with_usage`, src/print.c, src/print.h and src/debug.h: process setup and logging, with no part in the translation.
- The position of `keys.z` inside `keys.bits`: it is defined by the wiimote library's header, which is not part of this model. `keys.z` is an independent flag here.
- Midi.KindOf: classifies a message by its status byte and velocity only, and does not check that the data bytes are below 0x80. A receiver would read a data byte of 0x80 or more as a new status byte, so the counts over `KindOf` (`Emitter.SendMidiEventsCounts`, `Driver.RunNoteBalance`, `Driver.RunPitchBends`) describe what the driver announces, not what a receiver decodes. `Midi.NotePitchRange`, `Midi.PitchBendSevenBit` and the `Midi.NoteOnValid`, `Midi.NoteOffValid` and `Midi.PitchBendValid` lemmas give the exact conditions under which the data bytes are valid.
- 7-bit data bytes in Pitch Bend: MIDI data bytes must be below 0x80. The code writes the raw bytes of the 16-bit bend value, so the second byte is valid only when (whammy + 16) mod 64 < 32. The model does not correct this; `Midi.PitchBendSevenBit` states the exact condition.

=== FILE: bytes.dfy ===
/**
 The fixed-width integers of the driver: C's `unsigned char`, `uint16_t` and
 `int8_t`, and the conversions C performs when a wider `int` value is stored
 back into one of them.
 */
module Bytes {

  type Byte = x: int | 0 <= x < 0x100
  type U16 = x: int | 0 <= x < 0x1_0000
  type Int8 = x: int | -0x80 <= x < 0x80

  /** 1 for true, 0 for false: C's conversion of a `bool` to `int`. */
  function Ind(b: bool): (r: nat)
    ensures r <= 1
    ensures r == 1 <==> b
  {
    if b then 1 else 0
  }

  /** Storing an `int` into an `unsigned char`: the residue of `x` modulo 2^8. */
  function ToByte(x: int): Byte {
    x % 0x100
  }

  /** Storing an `int` into a `uint16_t`: the residue of `x` modulo 2^16. */
  function ToU16(x: int): U16 {
    x % 0x1_0000
  }

  /** The stored byte is congruent to `x`, and it is the only byte that is. */
  lemma ToByteCongruent(x: int, r: int)
    requires 0 <= r < 0x100
    ensures (x - ToByte(x)) % 0x100 == 0
    ensures (x - r) % 0x100 == 0 <==> r == ToByte(x)
  {
    var q := (x - r) / 0x100;
    assert x - r == 0x100 * q + (x - r) % 0x100;
    assert x == 0x100 * (x / 0x100) + ToByte(x);
    if (x - r) % 0x100 == 0 {
      assert ToByte(x) - r == 0x100 * (q - x / 0x100);
    }
  }

  /** A value already in range is stored unchanged. */
  lemma ToByteInRange(x: int)
    requires 0 <= x < 0x100
    ensures ToByte(x) == x
  {
  }

  /**
   Storing an `int` into an `int8_t`. C leaves an out-of-range conversion
   implementation-defined; this is the two's-complement wrap-around that GCC
   and Clang perform: the unique value in [-128, 128) congruent to `x` modulo 2^8.
   */
  function ToInt8(x: int): Int8 {
    (x + 0x80) % 0x100 - 0x80
  }

  /** The stored value is congruent to `x`; with `ToInt8Unique`, it is the only `int8_t` that is. */
  lemma ToInt8Congruent(x: int)
    ensures (x - ToInt8(x)) % 0x100 == 0
  {
  }

  /** A value already in range is stored unchanged. */
  lemma ToInt8InRange(x: int)
    requires -0x80 <= x < 0x80
    ensures ToInt8(x) == x
  {
  }

  /** The stored value is determined by its range and residue: any `int8_t` congruent to `x` is `ToInt8(x)`. */
  lemma ToInt8Unique(x: int, r: int)
    requires -0x80 <= r < 0x80
    requires (x - r) % 0x100 == 0
    ensures r == ToInt8(x)
  {
    var q := (x - r) / 0x100;
    assert x + 0x80 == 0x100 * q + (r + 0x80);
  }

  /** Wrapping twice is wrapping once: an intermediate `int8_t` store loses nothing that matters. */
  lemma ToInt8Absorbs(x: int, d: int)
    ensures ToInt8(ToInt8(x) + d) == ToInt8(x + d)
  {
    var q := (x + 0x80) / 0x100;
    assert ToInt8(x) == x - 0x100 * q;
    assert ToInt8(x) + d + 0x80 == (x + d + 0x80) - 0x100 * q;
  }

  /** Likewise for `unsigned char`. */
  lemma ToByteAbsorbs(x: int, d: int)
    ensures ToByte(ToByte(x) + d) == ToByte(x + d)
  {
    var q := x / 0x100;
    assert ToByte(x) == x - 0x100 * q;
  }

  /** The two bytes of a `uint16_t` as they lie in memory. */
  datatype BytePair = BytePair(lo: Byte, hi: Byte)

  /**
   The byte view `ch[0], ch[1]` of a `uint16_t` on a little-endian machine:
   `ch[0]` is the low-order byte. Reading the pair back recovers the value.
   */
  function LittleEndian(v: U16): (p: BytePair)
    ensures p.lo + 0x100 * p.hi == v
  {
    BytePair(v % 0x100, v / 0x100)
  }

  /** The byte split is injective: different values never share a byte pair. */
  lemma LittleEndianInjective(v: U16, w: U16)
    ensures LittleEndian(v) == LittleEndian(w) <==> v == w
  {
    if LittleEndian(v) == LittleEndian(w) {
      assert v == LittleEndian(v).lo + 0x100 * LittleEndian(v).hi;
    }
  }
}

=== FILE: driver.dfy ===
/**
 The per-frame driver: the LED mirror `send_wiimote_events`, one frame as a
 pure step, and the polling loop of `main` as a fold over the sequence of raw
 readings the wiimote delivers while it stays connected.
 */
module Driver {
  import opened Bytes
  import opened Guitar
  import opened Midi
  import opened Emitter

  /** The wiimote outputs the driver writes: LEDs one to four and the rumble motor. */
  datatype Leds = Leds(one: bool, two: bool, three: bool, four: bool, rumble: bool)

  /** The chord a LED pattern shows, weighted as `bits & 0x1F` weighs the fret buttons. */
  function LedValue(l: Leds): nat {
    Ind(l.one) + 2 * Ind(l.two) + 4 * Ind(l.three) + 8 * Ind(l.four) + 16 * Ind(l.rumble)
  }

  /** `send_wiimote_events`: LEDs one to four show green, red, yellow and blue, and orange drives the rumble motor. */
  function MirrorLeds(g: Guitar): Leds {
    Leds(g.button.green, g.button.red, g.button.yellow, g.button.blue, g.button.orange)
  }

  /** The LED pattern encodes exactly the fret mask the next Note On adds to middle C. */
  lemma MirrorLedsShowFrets(g: Guitar)
    ensures LedValue(MirrorLeds(g)) == Frets(g.button)
  {
    FretsAreFretButtons(g.button);
  }

  /** Two states show the same LEDs exactly when they would play the same chord; strum, minus, plus and whammy play no part. */
  lemma MirrorLedsOnlyFrets(g: Guitar, h: Guitar)
    ensures MirrorLeds(g) == MirrorLeds(h) <==> Frets(g.button) == Frets(h.button)
  {
    var l, m := MirrorLeds(g), MirrorLeds(h);
    MirrorLedsShowFrets(g);
    MirrorLedsShowFrets(h);
    if LedValue(l) == LedValue(m) {
      LedValueInjective(l, m);
    }
  }

  /** Different LED patterns have different values. */
  lemma LedValueInjective(l: Leds, m: Leds)
    requires LedValue(l) == LedValue(m)
    ensures l == m
  {
    LowBitSplits(l.one, m.one, LedValue(l) / 2, LedValue(m) / 2);
    LowBitSplits(l.two, m.two, LedValue(l) / 4, LedValue(m) / 4);
    LowBitSplits(l.three, m.three, LedValue(l) / 8, LedValue(m) / 8);
    LowBitSplits(l.four, m.four, LedValue(l) / 16, LedValue(m) / 16);
  }

  /** A bit and the value above it are fixed by their sum `bit + 2 * rest`. */
  lemma LowBitSplits(a: bool, b: bool, x: int, y: int)
    requires Ind(a) + 2 * x == Ind(b) + 2 * y
    ensures a == b && x == y
  {
  }

  /** The LEDs read straight off the raw key byte: the bit the decoder takes each fret from. */
  function RawLeds(raw: RawReading): Leds {
    Leds(raw.keys & 0x10 != 0, raw.keys & 0x40 != 0, raw.keys & 0x08 != 0,
         raw.keys & 0x20 != 0, raw.keys & 0x80 != 0)
  }

  /** The buttons a reading decodes to; the decoder reads them from the reading alone. */
  function ButtonsOf(raw: RawReading): Buttons {
    Decode(raw, Zeroed).button
  }

  /** The whammy value a reading decodes to. */
  function WhammieOf(raw: RawReading): Byte {
    Decode(raw, Zeroed).whammie
  }

  /** What one frame produces: the new state, `last_pitch`, the messages written in order, and the LEDs. */
  datatype Frame = Frame(cur: Guitar, lastPitch: Byte, msgs: seq<MidiMsg>, leds: Leds)

  /**
   One frame: decode the reading over the previous state (so its pitch offset
   carries over), apply the plus/minus edges, emit the MIDI events against the
   previous state, and mirror the frets on the LEDs.
   */
  function Step(raw: RawReading, prev: Guitar, lastPitch: Byte): (f: Frame)
    ensures f.cur.button == ButtonsOf(raw) && f.cur.whammie == WhammieOf(raw)
    ensures f.cur.pitchOffset == NextOffset(prev.pitchOffset, f.cur.button, prev.button)
    ensures f.leds == MirrorLeds(f.cur)
    ensures |f.msgs| <= 4
    ensures OffsCarryLatest(f.msgs, lastPitch) && f.lastPitch == LatestNoteOn(f.msgs, lastPitch)
  {
    var decoded := Decode(raw, prev);
    var cur := UpdatePitchOffset(decoded, prev);
    var e := SendMidiEvents(cur, prev, lastPitch);
    DecodeIgnoresPrior(raw, prev, Zeroed);
    assert decoded.button == ButtonsOf(raw) && decoded.whammie == WhammieOf(raw);
    UpdatePitchOffsetNet(decoded, prev);
    SendMidiEventsPitches(cur, prev, lastPitch);
    Frame(cur, e.lastPitch, e.msgs, MirrorLeds(cur))
  }

  /** The variables `main` carries around its loop. */
  datatype LoopState = LoopState(cur: Guitar, prev: Guitar, lastPitch: Byte)

  /** Before the first frame: both states zeroed, `last_pitch` at middle C. */
  const Start: LoopState := LoopState(Zeroed, Zeroed, InitialLastPitch)

  /** Everything the loop has done after some frames: its variables, all MIDI written, and the LEDs of each frame. */
  datatype Trace = Trace(state: LoopState, out: seq<MidiMsg>, leds: seq<Leds>)

  /**
   The loop run over a sequence of readings: each reading is one `Step` from
   the state the readings before it left. `MainLoop` shows this is what
   `main`'s loop computes.
   */
  function Run(frames: seq<RawReading>): (t: Trace)
    ensures |t.leds| == |frames|
    ensures t.state.cur == t.state.prev
  {
    if frames == [] then Trace(Start, [], [])
    else
      var before := Run(frames[..|frames| - 1]);
      var f := Step(frames[|frames| - 1], before.state.prev, before.state.lastPitch);
      Trace(LoopState(f.cur, f.cur, f.lastPitch), before.out + f.msgs, before.leds + [f.leds])
  }

  /** The buttons the loop holds in `prev` after the frames so far: those of the last reading, or all released. */
  function LastButtons(frames: seq<RawReading>): Buttons {
    if frames == [] then Zeroed.button else ButtonsOf(frames[|frames| - 1])
  }

  /** The whammy value held in `prev` after the frames so far. */
  function LastWhammie(frames: seq<RawReading>): Byte {
    if frames == [] then Zeroed.whammie else WhammieOf(frames[|frames| - 1])
  }

  /** The number of frames in which plus went from released to pressed, less those in which minus did. */
  function NetEdges(frames: seq<RawReading>): int {
    if frames == [] then 0
    else
      var before := frames[..|frames| - 1];
      NetEdges(before) + OffsetDelta(ButtonsOf(frames[|frames| - 1]), LastButtons(before))
  }

  /** The number of frames whose whammy value differs from the frame before. */
  function WhammyChanges(frames: seq<RawReading>): nat {
    if frames == [] then 0
    else
      var before := frames[..|frames| - 1];
      WhammyChanges(before) + Ind(WhammieOf(frames[|frames| - 1]) != LastWhammie(before))
  }

  /** After any frames, `prev` holds the last reading's buttons and whammy value. */
  lemma {:induction false} RunHoldsLastReading(frames: seq<RawReading>)
    ensures Run(frames).state.prev.button == LastButtons(frames)
    ensures Run(frames).state.prev.whammie == LastWhammie(frames)
  {
    if frames != [] {
      RunHoldsLastReading(frames[..|frames| - 1]);
    }
  }

  /** The offset a run of readings leaves, one `NextOffset` per reading: the reference for the loop's offset. */
  function OffsetAfter(frames: seq<RawReading>): Int8 {
    if frames == [] then Zeroed.pitchOffset
    else
      var before := frames[..|frames| - 1];
      NextOffset(OffsetAfter(before), ButtonsOf(frames[|frames| - 1]), LastButtons(before))
  }

  /** The loop's offset after any frames is the reference fold's. */
  lemma {:induction false} RunOffsetAfter(frames: seq<RawReading>)
    ensures Run(frames).state.cur.pitchOffset == OffsetAfter(frames)
  {
    if frames != [] {
      var before := frames[..|frames| - 1];
      RunOffsetAfter(before);
      RunHoldsLastReading(before);
    }
  }

  /** The reference fold is the net edge count wrapped once: intermediate wraps lose nothing. */
  lemma {:induction false} OffsetAfterNet(frames: seq<RawReading>)
    ensures OffsetAfter(frames) == ToInt8(NetEdges(frames))
  {
    if frames == [] {
      ToInt8InRange(0);
    } else {
      var before := frames[..|frames| - 1];
      OffsetAfterNet(before);
      NextOffsetAbsorbs(NetEdges(before), ButtonsOf(frames[|frames| - 1]), LastButtons(before));
    }
  }

  /**
   The pitch offset after any frames is the number of plus presses less the
   number of minus presses, wrapped once into `int8_t`.
   */
  lemma RunPitchOffset(frames: seq<RawReading>)
    ensures Run(frames).state.cur.pitchOffset == ToInt8(NetEdges(frames))
  {
    RunOffsetAfter(frames);
    OffsetAfterNet(frames);
  }

  /**
   Over any run, the Note Ons outnumber the Note Offs by exactly one while
   strum down is held and equal them otherwise. This balances the counts, not
   the pitches: see `PluckRetargetsRelease`.
   */
  lemma {:induction false} RunNoteBalance(frames: seq<RawReading>)
    ensures var t := Run(frames);
      Count(t.out, NoteOnKind) == Count(t.out, NoteOffKind) + Ind(t.state.cur.button.strumDown)
  {
    if frames != [] {
      var before := frames[..|frames| - 1];
      var s := Run(before).state;
      var f := Step(frames[|frames| - 1], s.prev, s.lastPitch);
      RunNoteBalance(before);
      SendMidiEventsCounts(f.cur, s.prev, s.lastPitch);
      CountAppend(Run(before).out, f.msgs, NoteOnKind);
      CountAppend(Run(before).out, f.msgs, NoteOffKind);
    }
  }

  /** Over any run, one Pitch Bend is written per frame in which the whammy moved, and no other. */
  lemma {:induction false} RunPitchBends(frames: seq<RawReading>)
    ensures Count(Run(frames).out, PitchBendKind) == WhammyChanges(frames)
  {
    if frames != [] {
      var before := frames[..|frames| - 1];
      var s := Run(before).state;
      var f := Step(frames[|frames| - 1], s.prev, s.lastPitch);
      RunPitchBends(before);
      RunHoldsLastReading(before);
      SendMidiEventsCounts(f.cur, s.prev, s.lastPitch);
      CountAppend(Run(before).out, f.msgs, PitchBendKind);
    }
  }

  /**
   Over any run, every Note Off carries the pitch of the latest Note On before
   it (middle C before the first), and `last_pitch` is that latest pitch.
   */
  lemma {:induction false} RunPitchTracking(frames: seq<RawReading>)
    ensures var t := Run(frames);
      OffsCarryLatest(t.out, InitialLastPitch) && t.state.lastPitch == LatestNoteOn(t.out, InitialLastPitch)
  {
    if frames != [] {
      var before := frames[..|frames| - 1];
      var s := Run(before).state;
      var f := Step(frames[|frames| - 1], s.prev, s.lastPitch);
      RunPitchTracking(before);
      OffsCarryLatestAppend(Run(before).out, f.msgs, InitialLastPitch);
      LatestNoteOnAppend(Run(before).out, f.msgs, InitialLastPitch);
    }
  }

  /** The LEDs mirror the fret bits of the reading the decoder took them from. */
  lemma MirrorLedsOfReading(raw: RawReading)
    ensures MirrorLeds(Decode(raw, Zeroed)) == RawLeds(raw)
  {
  }

  /** The LEDs of every frame show that frame's fret bits, whatever came before. */
  lemma {:induction false} RunLeds(frames: seq<RawReading>)
    ensures forall i :: 0 <= i < |frames| ==> Run(frames).leds[i] == RawLeds(frames[i])
  {
    if frames != [] {
      var before := frames[..|frames| - 1];
      var raw := frames[|frames| - 1];
      RunLeds(before);
      var s := Run(before).state;
      var f := Step(raw, s.prev, s.lastPitch);
      assert f.leds == MirrorLeds(Decode(raw, Zeroed));
      MirrorLedsOfReading(raw);
      forall i | 0 <= i < |frames|
        ensures Run(frames).leds[i] == RawLeds(frames[i])
      {
        if i < |frames| - 1 {
          assert frames[i] == before[i];
        }
      }
    }
  }

  /** One frame, piece by piece: given what the decoder, the offset update and the emitter produce, the step is fixed. */
  lemma StepOf(raw: RawReading, prev: Guitar, lastPitch: Byte, cur: Guitar, e: Emitted)
    requires UpdatePitchOffset(Decode(raw, prev), prev) == cur
    requires SendMidiEvents(cur, prev, lastPitch) == e
    ensures Step(raw, prev, lastPitch) == Frame(cur, e.lastPitch, e.msgs, MirrorLeds(cur))
  {
  }

  /** Extending a run whose state is known by a reading whose frame is known. */
  lemma RunExtend(frames: seq<RawReading>, raw: RawReading, cur: Guitar, lastPitch: Byte,
                  out: seq<MidiMsg>, leds: seq<Leds>, f: Frame)
    requires Run(frames) == Trace(LoopState(cur, cur, lastPitch), out, leds)
    requires Step(raw, cur, lastPitch) == f
    ensures Run(frames + [raw]) == Trace(LoopState(f.cur, f.cur, f.lastPitch), out + f.msgs, leds + [f.leds])
  {
    assert (frames + [raw])[..|frames|] == frames;
  }

  /** The prefix one longer is the prefix plus the next element. */
  lemma TakeOneMore<T>(s: seq<T>, i: nat)
    requires i < |s|
    ensures s[..i] + [s[i]] == s[..i + 1]
  {
  }

  /**
   The polling loop of `main`, written as the source writes it: `cur` and
   `prev` start zeroed, each reading is decoded into `cur`, the offset is
   updated, the events and LEDs are sent, and `cur` is copied into `prev`.
   */
  method MainLoop(frames: seq<RawReading>) returns (cur: Guitar, prev: Guitar, lastPitch: Byte, out: seq<MidiMsg>, leds: seq<Leds>)
    ensures Trace(LoopState(cur, prev, lastPitch), out, leds) == Run(frames)
    ensures prev == cur
    ensures Count(out, NoteOnKind) == Count(out, NoteOffKind) + Ind(cur.button.strumDown)
    ensures OffsCarryLatest(out, InitialLastPitch) && lastPitch == LatestNoteOn(out, InitialLastPitch)
    ensures cur.pitchOffset == ToInt8(NetEdges(frames))
  {
    cur, prev, lastPitch := Zeroed, Zeroed, InitialLastPitch;
    out, leds := [], [];
    var i := 0;
    while i < |frames|
      invariant 0 <= i <= |frames|
      invariant Trace(LoopState(cur, prev, lastPitch), out, leds) == Run(frames[..i])
      invariant cur == prev
    {
      var raw := frames[i];
      cur := Decode(raw, cur);
      cur := UpdatePitchOffset(cur, prev);
      var e := SendMidiEvents(cur, prev, lastPitch);
      StepOf(raw, prev, lastPitch, cur, e);
      RunExtend(frames[..i], raw, prev, lastPitch, out, leds, Step(raw, prev, lastPitch));
      TakeOneMore(frames, i);
      out := out + e.msgs;
      lastPitch := e.lastPitch;
      leds := leds + [MirrorLeds(cur)];
      prev := cur;
      i := i + 1;
    }
    assert frames[..|frames|] == frames;
    RunNoteBalance(frames);
    RunPitchTracking(frames);
    RunPitchOffset(frames);
  }
}

=== FILE: emitter.dfy ===
/**
 `send_midi_events`: three independent edge detectors, evaluated in a fixed
 order on the current and previous guitar state, each appending its messages
 to the frame's output and updating `last_pitch`.
 */
module Emitter {
  import opened Bytes
  import opened Guitar
  import opened Midi

  /** The messages a part of the frame wrote, and `last_pitch` afterwards. */
  datatype Emitted = Emitted(msgs: seq<MidiMsg>, lastPitch: Byte)

  /** C's `now < before` on two `bool`s: the button went from pressed to released. */
  predicate Falls(now: bool, before: bool) {
    !now && before
  }

  /** Strum down holds a note: Note On when pressed, Note Off for `last_pitch` when released, nothing otherwise. */
  function StrumDownEvents(cur: Guitar, prev: Guitar, lastPitch: Byte): (e: Emitted)
    ensures Count(e.msgs, NoteOnKind) == Ind(Rises(cur.button.strumDown, prev.button.strumDown))
    ensures Count(e.msgs, NoteOffKind) == Ind(Falls(cur.button.strumDown, prev.button.strumDown))
    ensures Count(e.msgs, PitchBendKind) == 0 && Count(e.msgs, OtherKind) == 0
    ensures |e.msgs| == Ind(cur.button.strumDown != prev.button.strumDown)
    ensures Rises(cur.button.strumDown, prev.button.strumDown) ==> e.msgs == [NoteOn(cur)]
    ensures Falls(cur.button.strumDown, prev.button.strumDown) ==> e.msgs == [NoteOff(lastPitch)]
    ensures OffsCarryLatest(e.msgs, lastPitch) && e.lastPitch == LatestNoteOn(e.msgs, lastPitch)
  {
    if Rises(cur.button.strumDown, prev.button.strumDown) then
      Emitted([NoteOn(cur)], NotePitch(cur))
    else if Falls(cur.button.strumDown, prev.button.strumDown) then
      Emitted([NoteOff(lastPitch)], lastPitch)
    else
      Emitted([], lastPitch)
  }

  /**
   Strum up plucks: Note On immediately followed by Note Off when pressed; the
   Note Off reads `last_pitch`, which the Note On has just set. Release and
   hold emit nothing.
   */
  function StrumUpEvents(cur: Guitar, prev: Guitar, lastPitch: Byte): (e: Emitted)
    ensures Count(e.msgs, NoteOnKind) == Ind(Rises(cur.button.strumUp, prev.button.strumUp))
    ensures Count(e.msgs, NoteOffKind) == Ind(Rises(cur.button.strumUp, prev.button.strumUp))
    ensures Count(e.msgs, PitchBendKind) == 0 && Count(e.msgs, OtherKind) == 0
    ensures Rises(cur.button.strumUp, prev.button.strumUp) ==>
              |e.msgs| == 2 && e.msgs[0] == NoteOn(cur) && KindOf(e.msgs[1]) == NoteOffKind
              && e.msgs[1].data1 == e.msgs[0].data1
    ensures !Rises(cur.button.strumUp, prev.button.strumUp) ==> e == Emitted([], lastPitch)
    ensures OffsCarryLatest(e.msgs, lastPitch) && e.lastPitch == LatestNoteOn(e.msgs, lastPitch)
  {
    if Rises(cur.button.strumUp, prev.button.strumUp) then
      var on := NoteOn(cur);
      var pitch := NotePitch(cur);
      var msgs := [on, NoteOff(pitch)];
      CountOfPair(on, NoteOff(pitch));
      assert msgs[..1] == [on] && [on][..0] == [];
      Emitted(msgs, pitch)
    else
      Emitted([], lastPitch)
  }

  /** Counting a two-message stream. */
  lemma CountOfPair(a: MidiMsg, b: MidiMsg)
    ensures forall k :: Count([a, b], k) == Ind(KindOf(a) == k) + Ind(KindOf(b) == k)
  {
    forall k
      ensures Count([a, b], k) == Ind(KindOf(a) == k) + Ind(KindOf(b) == k)
    {
      assert [a, b][..1] == [a] && [a][..0] == [];
      assert Count([a], k) == Count([], k) + Ind(KindOf(a) == k);
      assert Count([a, b], k) == Count([a], k) + Ind(KindOf(b) == k);
    }
  }

  /** The whammy sends one Pitch Bend for its current value whenever the value changed. */
  function WhammyEvents(cur: Guitar, prev: Guitar): (msgs: seq<MidiMsg>)
    ensures Count(msgs, PitchBendKind) == Ind(cur.whammie != prev.whammie)
    ensures Count(msgs, NoteOnKind) == 0 && Count(msgs, NoteOffKind) == 0 && Count(msgs, OtherKind) == 0
    ensures |msgs| == Ind(cur.whammie != prev.whammie)
  {
    if cur.whammie != prev.whammie then [PitchBend(cur.whammie)] else []
  }

  /** `send_midi_events`: strum-down events, then the strum-up pluck, then the pitch bend. */
  function SendMidiEvents(cur: Guitar, prev: Guitar, lastPitch: Byte): (e: Emitted)
    ensures |e.msgs| <= 4
  {
    var down := StrumDownEvents(cur, prev, lastPitch);
    var up := StrumUpEvents(cur, prev, down.lastPitch);
    Emitted(down.msgs + up.msgs + WhammyEvents(cur, prev), up.lastPitch)
  }

  /**
   How many messages of each kind a frame sends: one Note On per strum-down or
   strum-up press, one Note Off per strum-down release or strum-up press, one
   Pitch Bend per whammy change, and nothing else.
   */
  lemma SendMidiEventsCounts(cur: Guitar, prev: Guitar, lastPitch: Byte)
    ensures var e := SendMidiEvents(cur, prev, lastPitch);
      && Count(e.msgs, NoteOnKind)
         == Ind(Rises(cur.button.strumDown, prev.button.strumDown)) + Ind(Rises(cur.button.strumUp, prev.button.strumUp))
      && Count(e.msgs, NoteOffKind)
         == Ind(Falls(cur.button.strumDown, prev.button.strumDown)) + Ind(Rises(cur.button.strumUp, prev.button.strumUp))
      && Count(e.msgs, PitchBendKind) == Ind(cur.whammie != prev.whammie)
      && Count(e.msgs, OtherKind) == 0
      && |e.msgs| == Count(e.msgs, NoteOnKind) + Count(e.msgs, NoteOffKind) + Count(e.msgs, PitchBendKind)
  {
    var down := StrumDownEvents(cur, prev, lastPitch);
    var up := StrumUpEvents(cur, prev, down.lastPitch);
    var bend := WhammyEvents(cur, prev);
    var msgs := down.msgs + up.msgs + bend;
    CountOfThree(down.msgs, up.msgs, bend, NoteOnKind);
    CountOfThree(down.msgs, up.msgs, bend, NoteOffKind);
    CountOfThree(down.msgs, up.msgs, bend, PitchBendKind);
    CountOfThree(down.msgs, up.msgs, bend, OtherKind);
    CountOther(msgs);
  }

  /** Counting three streams written one after another. */
  lemma CountOfThree(a: seq<MidiMsg>, b: seq<MidiMsg>, c: seq<MidiMsg>, k: Kind)
    ensures Count(a + b + c, k) == Count(a, k) + Count(b, k) + Count(c, k)
  {
    CountAppend(a + b, c, k);
    CountAppend(a, b, k);
  }

  /** No Note On, Note Off or Pitch Bend is "other"; the kinds partition any stream. */
  lemma {:induction false} CountOther(msgs: seq<MidiMsg>)
    ensures |msgs| == Count(msgs, NoteOnKind) + Count(msgs, NoteOffKind) + Count(msgs, PitchBendKind) + Count(msgs, OtherKind)
  {
    if msgs != [] {
      CountOther(msgs[..|msgs| - 1]);
    }
  }

  /**
   What the frame's messages are and in which order: strum-down's message
   first, then the strum-up Note On / Note Off pair, the Pitch Bend last; every
   Note On is for the current frets and offset, every Pitch Bend for the
   current whammy; and the frame is silent exactly when neither strum changed
   in a way that sounds and the whammy held still.
   */
  lemma SendMidiEventsOrder(cur: Guitar, prev: Guitar, lastPitch: Byte)
    ensures var e := SendMidiEvents(cur, prev, lastPitch);
      && (Rises(cur.button.strumDown, prev.button.strumDown) ==> e.msgs[0] == NoteOn(cur))
      && (Falls(cur.button.strumDown, prev.button.strumDown) ==> e.msgs[0] == NoteOff(lastPitch))
      && (Rises(cur.button.strumUp, prev.button.strumUp) ==>
            var k := Ind(cur.button.strumDown != prev.button.strumDown);
            e.msgs[k] == NoteOn(cur) && e.msgs[k + 1] == NoteOff(NotePitch(cur)))
      && (cur.whammie != prev.whammie ==> e.msgs[|e.msgs| - 1] == PitchBend(cur.whammie))
      && (forall i :: 0 <= i < |e.msgs| && KindOf(e.msgs[i]) == PitchBendKind ==> i == |e.msgs| - 1)
      && (forall i :: 0 <= i < |e.msgs| && KindOf(e.msgs[i]) == NoteOnKind ==> e.msgs[i] == NoteOn(cur))
      && (forall i :: 0 <= i < |e.msgs| && KindOf(e.msgs[i]) == PitchBendKind ==> e.msgs[i] == PitchBend(cur.whammie))
      && (e.msgs == [] <==>
            cur.button.strumDown == prev.button.strumDown && !Rises(cur.button.strumUp, prev.button.strumUp)
            && cur.whammie == prev.whammie)
  {
    SendMidiEventsPositions(cur, prev, lastPitch);
    SendMidiEventsKinds(cur, prev, lastPitch);
  }

  /** The position of each part's messages in the frame. */
  lemma SendMidiEventsPositions(cur: Guitar, prev: Guitar, lastPitch: Byte)
    ensures var e := SendMidiEvents(cur, prev, lastPitch);
      && (Rises(cur.button.strumDown, prev.button.strumDown) ==> e.msgs[0] == NoteOn(cur))
      && (Falls(cur.button.strumDown, prev.button.strumDown) ==> e.msgs[0] == NoteOff(lastPitch))
      && (Rises(cur.button.strumUp, prev.button.strumUp) ==>
            var k := Ind(cur.button.strumDown != prev.button.strumDown);
            e.msgs[k] == NoteOn(cur) && e.msgs[k + 1] == NoteOff(NotePitch(cur)))
      && (cur.whammie != prev.whammie ==> e.msgs[|e.msgs| - 1] == PitchBend(cur.whammie))
      && (e.msgs == [] <==>
            cur.button.strumDown == prev.button.strumDown && !Rises(cur.button.strumUp, prev.button.strumUp)
            && cur.whammie == prev.whammie)
  {
    var down := StrumDownEvents(cur, prev, lastPitch);
    var up := StrumUpEvents(cur, prev, down.lastPitch);
    var bend := WhammyEvents(cur, prev);
  }

  /** Every Note On is for the current chord, and a Pitch Bend, for the current whammy, can only come last. */
  lemma SendMidiEventsKinds(cur: Guitar, prev: Guitar, lastPitch: Byte)
    ensures var e := SendMidiEvents(cur, prev, lastPitch);
      && (forall i :: 0 <= i < |e.msgs| && KindOf(e.msgs[i]) == PitchBendKind ==> i == |e.msgs| - 1)
      && (forall i :: 0 <= i < |e.msgs| && KindOf(e.msgs[i]) == NoteOnKind ==> e.msgs[i] == NoteOn(cur))
      && (forall i :: 0 <= i < |e.msgs| && KindOf(e.msgs[i]) == PitchBendKind ==> e.msgs[i] == PitchBend(cur.whammie))
  {
    var down := StrumDownEvents(cur, prev, lastPitch);
    var up := StrumUpEvents(cur, prev, down.lastPitch);
    var bend := WhammyEvents(cur, prev);
    PartsKinds(cur, down.msgs, up.msgs, bend);
  }

  /** Where each kind can sit in a frame made of the three parts, and what it carries. */
  lemma PartsKinds(cur: Guitar, down: seq<MidiMsg>, up: seq<MidiMsg>, bend: seq<MidiMsg>)
    requires forall i :: 0 <= i < |down| ==> KindOf(down[i]) != PitchBendKind && (KindOf(down[i]) == NoteOnKind ==> down[i] == NoteOn(cur))
    requires forall i :: 0 <= i < |up| ==> KindOf(up[i]) != PitchBendKind && (KindOf(up[i]) == NoteOnKind ==> up[i] == NoteOn(cur))
    requires forall i :: 0 <= i < |bend| ==> bend[i] == PitchBend(cur.whammie)
    ensures var msgs := down + up + bend;
      forall i :: 0 <= i < |msgs| ==>
        && (i < |down| + |up| ==> KindOf(msgs[i]) != PitchBendKind)
        && (KindOf(msgs[i]) == NoteOnKind ==> msgs[i] == NoteOn(cur))
        && (KindOf(msgs[i]) == PitchBendKind ==> msgs[i] == PitchBend(cur.whammie))
  {
    var msgs := down + up + bend;
    forall i | 0 <= i < |msgs|
      ensures i < |down| + |up| ==> KindOf(msgs[i]) != PitchBendKind
      ensures KindOf(msgs[i]) == NoteOnKind ==> msgs[i] == NoteOn(cur)
      ensures KindOf(msgs[i]) == PitchBendKind ==> msgs[i] == PitchBend(cur.whammie)
    {
      if i < |down| {
        assert msgs[i] == down[i];
      } else if i < |down| + |up| {
        assert msgs[i] == up[i - |down|];
      } else {
        assert msgs[i] == bend[i - |down| - |up|];
      }
    }
  }

  /**
   A frame in which strum down changed and nothing else sounds sends exactly
   one message: the Note On for a press, the Note Off for `last_pitch` for a
   release.
   */
  lemma StrumDownOnly(cur: Guitar, prev: Guitar, lastPitch: Byte)
    requires cur.button.strumDown != prev.button.strumDown
    requires !Rises(cur.button.strumUp, prev.button.strumUp) && cur.whammie == prev.whammie
    ensures var e := SendMidiEvents(cur, prev, lastPitch);
      e.msgs == (if cur.button.strumDown then [NoteOn(cur)] else [NoteOff(lastPitch)])
      && e.lastPitch == (if cur.button.strumDown then NotePitch(cur) else lastPitch)
  {
    assert StrumUpEvents(cur, prev, StrumDownEvents(cur, prev, lastPitch).lastPitch).msgs == [];
  }

  /** A frame in which only strum up was pressed sends the pluck: Note On, then Note Off for the same pitch. */
  lemma PluckOnly(cur: Guitar, prev: Guitar, lastPitch: Byte)
    requires cur.button.strumDown == prev.button.strumDown
    requires Rises(cur.button.strumUp, prev.button.strumUp) && cur.whammie == prev.whammie
    ensures SendMidiEvents(cur, prev, lastPitch) == Emitted([NoteOn(cur), NoteOff(NotePitch(cur))], NotePitch(cur))
  {
    assert StrumDownEvents(cur, prev, lastPitch) == Emitted([], lastPitch);
    assert [] + [NoteOn(cur), NoteOff(NotePitch(cur))] + [] == [NoteOn(cur), NoteOff(NotePitch(cur))];
  }

  /**
   While strum down holds a note, a strum-up pluck moves `last_pitch` to the
   plucked pitch, so releasing strum down afterwards turns off the plucked
   pitch rather than the held one.
   */
  lemma PluckRetargetsRelease(held: Guitar, plucked: Guitar, released: Guitar, lastPitch: Byte)
    requires held.button.strumDown && plucked.button.strumDown && !released.button.strumDown
    requires Rises(plucked.button.strumUp, held.button.strumUp)
    ensures var e := SendMidiEvents(plucked, held, lastPitch);
      && e.lastPitch == NotePitch(plucked)
      && SendMidiEvents(released, plucked, e.lastPitch).msgs[0] == NoteOff(NotePitch(plucked))
  {
    var down := StrumDownEvents(plucked, held, lastPitch);
    assert down == Emitted([], lastPitch);
    var e := SendMidiEvents(plucked, held, lastPitch);
    assert e.lastPitch == StrumUpEvents(plucked, held, lastPitch).lastPitch;
    var r := SendMidiEvents(released, plucked, e.lastPitch);
    assert StrumDownEvents(released, plucked, e.lastPitch).msgs == [NoteOff(e.lastPitch)];
    assert r.msgs[0] == StrumDownEvents(released, plucked, e.lastPitch).msgs[0];
  }

  /**
   Every Note Off in the frame carries the pitch of the latest Note On before
   it (the incoming `last_pitch` when there is none in the frame), and
   `last_pitch` afterwards is the pitch of the frame's last Note On, or the
   incoming `last_pitch` when the frame sent none.
   */
  lemma SendMidiEventsPitches(cur: Guitar, prev: Guitar, lastPitch: Byte)
    ensures var e := SendMidiEvents(cur, prev, lastPitch);
      OffsCarryLatest(e.msgs, lastPitch) && e.lastPitch == LatestNoteOn(e.msgs, lastPitch)
  {
    var down := StrumDownEvents(cur, prev, lastPitch);
    var up := StrumUpEvents(cur, prev, down.lastPitch);
    var bend := WhammyEvents(cur, prev);
    OffsCarryLatestAppend(down.msgs, up.msgs, lastPitch);
    LatestNoteOnAppend(down.msgs, up.msgs, lastPitch);
    OffsCarryLatestAppend(down.msgs + up.msgs, bend, lastPitch);
    LatestNoteOnAppend(down.msgs + up.msgs, bend, lastPitch);
    assert OffsCarryLatest(bend, up.lastPitch) && LatestNoteOn(bend, up.lastPitch) == up.lastPitch by {
      if bend != [] {
        assert bend[..0] == [];
      }
    }
  }
}

=== FILE: guitar.dfy ===
/**
 The controller side of the driver: the raw reading of the Wii extension, the
 decoded guitar state (`guitar_buttons_t` / `guitar_t`), the decoder
 `wiimote_to_ghc` and the pitch-offset updater `update_ghc_midi_state`.
 */
module Guitar {
  import opened Bytes

  /**
   The part of the Wii extension record the decoder reads: the key byte
   `keys.bits`, the key flag `keys.z`, and the axis bytes `axis.y` and `axis.z`.
   Where `keys.z` lies inside `keys.bits` is defined by the wiimote library,
   which is not part of this model, so it is an independent flag here. The
   bytes the decoder tests bit by bit are bit-vectors; `axis.y`, which it only
   does arithmetic on, is an integer byte.
   */
  datatype RawReading = RawReading(keys: bv8, keyZ: bool, axisY: Byte, axisZ: bv8)

  /** The nine buttons of `guitar_buttons_t`; true means pressed. */
  datatype Buttons = Buttons(
    green: bool, red: bool, yellow: bool, blue: bool, orange: bool,
    strumUp: bool, strumDown: bool,
    minus: bool, plus: bool)

  /** `guitar_t`: the buttons, the biased whammy reading and the octave offset, 12 semitones per step. */
  datatype Guitar = Guitar(button: Buttons, whammie: Byte, pitchOffset: Int8)

  /** The all-zero state `memset` gives `cur` and `prev` before the first frame. */
  const Zeroed: Guitar := Guitar(Buttons(false, false, false, false, false, false, false, false, false), 0, 0)

  /** The raw value of `axis.z` that reads as strum-down. */
  const StrumDownAxis: bv8 := 191

  /** The raw value of `axis.y` that reads as a whammy bar at rest. */
  const WhammyBias := 240

  /**
   `wiimote_to_ghc`: decodes one raw reading into `prior`, the state the loop
   keeps in `cur`. Frets come from the key byte by shift-and-mask, minus and
   plus from the complement of `axis.z`, and the whammy is `axis.y` minus the
   bias, stored into a byte. The pitch offset is not written, so it is the one
   `prior` carried.
   */
  function Decode(raw: RawReading, prior: Guitar): (g: Guitar)
    ensures g.pitchOffset == prior.pitchOffset
    ensures g.button.green == (raw.keys & 0x10 != 0)
    ensures g.button.red == (raw.keys & 0x40 != 0)
    ensures g.button.yellow == (raw.keys & 0x08 != 0)
    ensures g.button.blue == (raw.keys & 0x20 != 0)
    ensures g.button.orange == (raw.keys & 0x80 != 0)
    ensures g.button.strumUp == raw.keyZ
    ensures g.button.strumDown <==> raw.axisZ == StrumDownAxis
    ensures g.button.minus <==> raw.axisZ & 0x10 == 0
    ensures g.button.plus <==> raw.axisZ & 0x04 == 0
    ensures (g.whammie + WhammyBias) % 0x100 == raw.axisY
    ensures Decodable(g.button)
  {
    var bits := raw.keys;
    var z := raw.axisZ;
    var b := Buttons(
      (bits >> 4) & 1 == 1,
      (bits >> 6) & 1 == 1,
      (bits >> 3) & 1 == 1,
      (bits >> 5) & 1 == 1,
      (bits >> 7) & 1 == 1,
      raw.keyZ,
      z == StrumDownAxis,
      ((!z) >> 4) & 1 == 1,
      ((!z) >> 2) & 1 == 1);
    Guitar(b, ToByte(raw.axisY - WhammyBias), prior.pitchOffset)
  }

  /** Everything but the pitch offset comes from the reading alone. */
  lemma DecodeIgnoresPrior(raw: RawReading, prior: Guitar, other: Guitar)
    ensures Decode(raw, prior) == Decode(raw, other).(pitchOffset := prior.pitchOffset)
  {
  }

  /** Strum down alone, whammy at rest: `axis.z` 191, `axis.y` at the bias. */
  lemma DecodeStrumDown()
    ensures Decode(RawReading(0, false, WhammyBias, StrumDownAxis), Zeroed)
            == Zeroed.(button := Zeroed.button.(strumDown := true))
  {
  }

  /** Nothing pressed, whammy at rest: `axis.z` with bits 4 and 2 set reads minus and plus as released. */
  lemma DecodeAtRest()
    ensures Decode(RawReading(0, false, WhammyBias, 0x14), Zeroed) == Zeroed
  {
  }

  /**
   The button combinations a raw reading can produce: strum-down is the single
   `axis.z` value 191, whose bits 4 and 2 are set, so it always reads minus and
   plus as released.
   */
  predicate Decodable(b: Buttons) {
    b.strumDown ==> !b.minus && !b.plus
  }

  /** A raw reading that decodes to the given buttons and whammy value. */
  function Encode(b: Buttons, whammie: Byte): RawReading {
    var keys: bv8 :=
      (if b.green then 0x10 else 0) | (if b.red then 0x40 else 0) |
      (if b.yellow then 0x08 else 0) | (if b.blue then 0x20 else 0) |
      (if b.orange then 0x80 else 0);
    var z: bv8 :=
      if b.strumDown then StrumDownAxis
      else (if b.minus then 0 else 0x10) | (if b.plus then 0 else 0x04);
    RawReading(keys, b.strumUp, (whammie + WhammyBias) % 0x100, z)
  }

  /**
   Every decodable combination is produced by some reading: with `Decode`'s
   own `Decodable` guarantee, the decoder's image is exactly the decodable
   combinations, for every whammy value.
   */
  lemma DecodeEncode(b: Buttons, whammie: Byte, prior: Guitar)
    requires Decodable(b)
    ensures Decode(Encode(b, whammie), prior) == Guitar(b, whammie, prior.pitchOffset)
  {
    var raw := Encode(b, whammie);
    KeyBitsOfEncode(b);
    AxisBitsOfEncode(b);
  }

  lemma KeyBitsOfEncode(b: Buttons)
    ensures var k := Encode(b, 0).keys;
      && (k & 0x10 != 0) == b.green && (k & 0x40 != 0) == b.red && (k & 0x08 != 0) == b.yellow
      && (k & 0x20 != 0) == b.blue && (k & 0x80 != 0) == b.orange
  {
  }

  lemma AxisBitsOfEncode(b: Buttons)
    requires Decodable(b)
    ensures var z := Encode(b, 0).axisZ;
      && (z == StrumDownAxis) == b.strumDown && (z & 0x10 == 0) == b.minus && (z & 0x04 == 0) == b.plus
  {
  }

  /** C's `now > before` on two `bool`s: the button went from released to pressed. */
  predicate Rises(now: bool, before: bool) {
    now && !before
  }

  /**
   `update_ghc_midi_state`: a newly pressed plus increments the `int8_t`
   offset, then a newly pressed minus decrements it. Held or released buttons
   do nothing. Nothing but the offset changes.
   */
  function UpdatePitchOffset(cur: Guitar, prev: Guitar): (r: Guitar)
    ensures r.button == cur.button && r.whammie == cur.whammie
    ensures Rises(cur.button.plus, prev.button.plus) && !Rises(cur.button.minus, prev.button.minus) ==>
              r.pitchOffset == (if cur.pitchOffset == 0x7f then -0x80 else cur.pitchOffset + 1)
    ensures Rises(cur.button.minus, prev.button.minus) && !Rises(cur.button.plus, prev.button.plus) ==>
              r.pitchOffset == (if cur.pitchOffset == -0x80 then 0x7f else cur.pitchOffset - 1)
    ensures Rises(cur.button.plus, prev.button.plus) == Rises(cur.button.minus, prev.button.minus) ==>
              r.pitchOffset == cur.pitchOffset
  {
    var afterPlus := if Rises(cur.button.plus, prev.button.plus) then ToInt8(cur.pitchOffset + 1) else cur.pitchOffset;
    var afterMinus := if Rises(cur.button.minus, prev.button.minus) then ToInt8(afterPlus - 1) else afterPlus;
    cur.(pitchOffset := afterMinus)
  }

  /** The net number of offset steps one frame's plus and minus edges ask for: -1, 0 or 1. */
  function OffsetDelta(now: Buttons, before: Buttons): int {
    Ind(Rises(now.plus, before.plus)) - Ind(Rises(now.minus, before.minus))
  }

  /** The offset after one frame's edges: moved by the net edge count, wrapped once into `int8_t`. */
  function NextOffset(offset: Int8, now: Buttons, before: Buttons): Int8 {
    ToInt8(offset + OffsetDelta(now, before))
  }

  /**
   The two sequential wrapping updates of `update_ghc_midi_state` agree with
   one wrap of the net edge count; on a plus-and-minus frame at 127 the
   intermediate wrap to -128 is undone by the decrement.
   */
  lemma UpdatePitchOffsetNet(cur: Guitar, prev: Guitar)
    ensures UpdatePitchOffset(cur, prev).pitchOffset == NextOffset(cur.pitchOffset, cur.button, prev.button)
  {
    var p: int := Ind(Rises(cur.button.plus, prev.button.plus));
    var m: int := Ind(Rises(cur.button.minus, prev.button.minus));
    ToInt8InRange(cur.pitchOffset);
    ToInt8Absorbs(cur.pitchOffset + p, -m);
  }

  /** Starting from a wrapped count, one update is the wrapped count plus the frame's edges. */
  lemma NextOffsetAbsorbs(n: int, now: Buttons, before: Buttons)
    ensures NextOffset(ToInt8(n), now, before) == ToInt8(n + OffsetDelta(now, before))
  {
    ToInt8Absorbs(n, OffsetDelta(now, before));
  }
}

=== FILE: midi.dfy ===
/**
 The MIDI side of the driver: the 3-byte channel-voice messages it writes,
 the payload builders `emit_note_on`, `emit_note_off` and `emit_pitch_bend`
 (their write to the sound device becomes the message value), the kind each
 message's status byte and velocity announce, and when its data bytes are
 valid MIDI 1.0 data bytes.
 */
module Midi {
  import opened Bytes
  import opened Guitar

  /** One 3-byte message `{ status, data1, data2 }` as written to the raw MIDI device. */
  datatype MidiMsg = MidiMsg(status: Byte, data1: Byte, data2: Byte)

  /** Note On, channel 1 (status nibble 9, channel nibble 0). */
  const NoteOnStatus: Byte := 0x90
  /** Pitch Bend, channel 1 (status nibble E, channel nibble 0). */
  const PitchBendStatus: Byte := 0xE0
  /** Middle C, the pitch of the lowest note with no fret pressed and no offset. */
  const MiddleC: Byte := 0x3c
  /** The fixed Note On velocity, 64. */
  const NoteVelocity: Byte := 0x40
  /** `last_pitch` before the first Note On. */
  const InitialLastPitch: Byte := 0x3c
  /** The 16-bit bend value meaning "no bend". */
  const BendCentre: U16 := 0x4000
  /** Bend units per whammy step. */
  const BendScale := 1024

  /**
   The byte `button.bits` of the union in `guitar_buttons_t`. Modelling
   assumption: the compiler lays the one-bit fields out from the least
   significant bit, green in bit 0 up to strum_down in bit 6. Bit 7 belongs to
   no field; `main` zeroes it and nothing writes it afterwards, so it is 0.
   */
  function ButtonBits(b: Buttons): (r: Byte)
    ensures r < 0x80
  {
    Ind(b.green) + 2 * Ind(b.red) + 4 * Ind(b.yellow) + 8 * Ind(b.blue) + 16 * Ind(b.orange)
    + 32 * Ind(b.strumUp) + 64 * Ind(b.strumDown)
  }

  /** `bits & 0x1F`: the low five bits of the button byte. */
  function Frets(b: Buttons): (r: nat)
    ensures r < 0x20
  {
    ButtonBits(b) % 0x20
  }

  /** The masked value is the five fret buttons as a binary number; the strum bits never reach it. */
  lemma FretsAreFretButtons(b: Buttons)
    ensures Frets(b) == Ind(b.green) + 2 * Ind(b.red) + 4 * Ind(b.yellow) + 8 * Ind(b.blue) + 16 * Ind(b.orange)
  {
    var low := Ind(b.green) + 2 * Ind(b.red) + 4 * Ind(b.yellow) + 8 * Ind(b.blue) + 16 * Ind(b.orange);
    var high := Ind(b.strumUp) + 2 * Ind(b.strumDown);
    assert ButtonBits(b) == low + 0x20 * high;
    LowBits(low, high);
  }

  /** Masking with 0x1F keeps the low five bits and drops the multiple of 0x20 above them. */
  lemma LowBits(low: int, high: int)
    requires 0 <= low < 0x20
    ensures (low + 0x20 * high) % 0x20 == low
  {
  }

  /**
   The pitch byte of `emit_note_on`: middle C plus the fret mask, stored into
   the `unsigned char`, then plus twelve semitones per offset step, stored
   again.
   */
  function NotePitch(g: Guitar): Byte {
    var pitch := ToByte(MiddleC + Frets(g.button));
    ToByte(pitch + 12 * g.pitchOffset)
  }

  /** The two wrapping stores agree with one wrap of the whole sum. */
  lemma NotePitchOneWrap(g: Guitar)
    ensures NotePitch(g) == ToByte(MiddleC + Frets(g.button) + 12 * g.pitchOffset)
  {
    ToByteAbsorbs(MiddleC + Frets(g.button), 12 * g.pitchOffset);
  }

  /** The pitch ignores both strum bits, the minus and plus buttons and the whammy. */
  lemma NotePitchIgnoresStrum(g: Guitar, h: Guitar)
    requires g.pitchOffset == h.pitchOffset
    requires g.button.(strumUp := false, strumDown := false, minus := false, plus := false)
          == h.button.(strumUp := false, strumDown := false, minus := false, plus := false)
    ensures NotePitch(g) == NotePitch(h)
  {
    FretsAreFretButtons(g.button);
    FretsAreFretButtons(h.button);
  }

  /** For a fixed offset, the pitch byte determines the fret combination: different chords never collide. */
  lemma NotePitchDeterminesFrets(g: Guitar, h: Guitar)
    requires g.pitchOffset == h.pitchOffset
    ensures NotePitch(g) == NotePitch(h) <==> Frets(g.button) == Frets(h.button)
  {
    NotePitchOneWrap(g);
    NotePitchOneWrap(h);
    WrapSeparates(MiddleC + 12 * g.pitchOffset, Frets(g.button), Frets(h.button));
  }

  /** Adding two values less than 2^8 apart to the same base, the stored bytes differ exactly when the values do. */
  lemma WrapSeparates(base: int, a: int, b: int)
    requires 0 <= a < 0x100 && 0 <= b < 0x100
    ensures ToByte(base + a) == ToByte(base + b) <==> a == b
  {
    if ToByte(base + a) == ToByte(base + b) {
      var qa, qb := (base + a) / 0x100, (base + b) / 0x100;
      assert base + a == 0x100 * qa + ToByte(base + a);
      assert base + b == 0x100 * qb + ToByte(base + b);
      assert a - b == 0x100 * (qa - qb);
    }
  }

  /** The worked examples: green alone is 0x3d at offset 0 and an octave higher, 0x49, at offset 1. */
  lemma NotePitchExamples(b: Buttons)
    requires b.green && !b.red && !b.yellow && !b.blue && !b.orange
    ensures NotePitch(Guitar(b, 0, 0)) == 0x3d
    ensures NotePitch(Guitar(b, 0, 1)) == 0x49
  {
    FretsAreFretButtons(b);
  }

  /**
   Offsets -5 through 3 keep every chord a valid MIDI key (below 0x80) with no
   wrap-around; offset 4 already pushes the chords with value 20 or more out of
   the 7-bit range.
   */
  lemma NotePitchRange(g: Guitar)
    ensures -5 <= g.pitchOffset <= 3 ==>
              NotePitch(g) == MiddleC + Frets(g.button) + 12 * g.pitchOffset && NotePitch(g) < 0x80
    ensures g.pitchOffset == 4 && Frets(g.button) >= 20 ==> NotePitch(g) >= 0x80
  {
    NotePitchOneWrap(g);
    var sum := MiddleC + Frets(g.button) + 12 * g.pitchOffset;
    if -5 <= g.pitchOffset <= 4 {
      ToByteInRange(sum);
    }
  }

  /** `emit_note_on`'s payload. */
  function NoteOn(g: Guitar): (m: MidiMsg)
    ensures KindOf(m) == NoteOnKind && m.data1 == NotePitch(g)
    ensures m.status == NoteOnStatus && m.data2 == NoteVelocity
  {
    MidiMsg(NoteOnStatus, NotePitch(g), NoteVelocity)
  }

  /**
   `emit_note_off`'s payload: a Note On at velocity 0 for `last_pitch`, which
   MIDI 1.0 counts as a Note Off.
   */
  function NoteOff(lastPitch: Byte): (m: MidiMsg)
    ensures KindOf(m) == NoteOffKind && m.data1 == lastPitch
    ensures m.status == NoteOnStatus && m.data2 == 0
  {
    MidiMsg(NoteOnStatus, lastPitch, 0)
  }

  /** The bend value `emit_pitch_bend` computes: centre plus 1024 per whammy step, in a `uint16_t`. */
  function BendValue(whammie: Byte): U16 {
    ToU16(BendCentre + whammie * BendScale)
  }

  /**
   In closed form: the wrap-around brings the value back to 0 every 64
   steps, so it is 1024 times the whammy position, counted from 16 steps
   below rest, modulo 64.
   */
  lemma BendValueClosedForm(whammie: Byte)
    ensures BendValue(whammie) == 1024 * ((whammie + 16) % 64)
  {
    var q, r := (whammie + 16) / 64, (whammie + 16) % 64;
    assert BendCentre + whammie * BendScale == 0x1_0000 * q + 1024 * r;
  }

  /**
   `emit_pitch_bend`'s payload: the bytes of the bend value in memory order.
   Modelling assumption: the machine is little-endian, so the first data byte
   is the low-order one.
   */
  function PitchBend(whammie: Byte): (m: MidiMsg)
    ensures KindOf(m) == PitchBendKind
    ensures m.data1 + 0x100 * m.data2 == BendValue(whammie)
  {
    var bytes := LittleEndian(BendValue(whammie));
    MidiMsg(PitchBendStatus, bytes.lo, bytes.hi)
  }

  /** The first data byte is always 0 and the second moves four per whammy step, wrapping. */
  lemma PitchBendBytes(whammie: Byte)
    ensures PitchBend(whammie).data1 == 0
    ensures PitchBend(whammie).data2 == ToByte(0x40 + 4 * whammie)
    ensures PitchBend(whammie).data2 == 4 * ((whammie + 16) % 64)
  {
    var r := (whammie + 16) % 64;
    BendValueClosedForm(whammie);
    assert BendValue(whammie) == 0x100 * (4 * r);
    LittleEndianOfMultiple(4 * r);
    HighByteWraps(whammie);
  }

  /** A multiple of 0x100 has a zero low byte. */
  lemma LittleEndianOfMultiple(k: int)
    requires 0 <= k < 0x100
    ensures LittleEndian(0x100 * k) == BytePair(0, k)
  {
  }

  /** Adding four per step to 0x40 in a byte wraps back every 64 steps. */
  lemma HighByteWraps(w: int)
    ensures ToByte(0x40 + 4 * w) == 4 * ((w + 16) % 64)
  {
    var q := (w + 16) / 64;
    assert 0x40 + 4 * w == 0x100 * q + 4 * ((w + 16) % 64);
  }

  /** The message is centred at rest: whammy 0 sends the MIDI no-bend value. */
  lemma PitchBendCentre()
    ensures PitchBend(0) == MidiMsg(PitchBendStatus, 0x00, 0x40)
  {
    PitchBendBytes(0);
  }

  /**
   The second data byte is a valid 7-bit MIDI data byte exactly when the whammy
   lies within 16 steps below a multiple of 64 or at most 15 above it: all of
   0..15 qualify, none of 16..47.
   */
  lemma PitchBendSevenBit(whammie: Byte)
    ensures PitchBend(whammie).data2 < 0x80 <==> (whammie + 16) % 64 < 32
    ensures whammie < 16 ==> PitchBend(whammie).data2 < 0x80
    ensures 16 <= whammie < 48 ==> PitchBend(whammie).data2 >= 0x80
  {
    PitchBendBytes(whammie);
  }

  /** Two whammy values send the same message exactly when they agree modulo 64. */
  lemma PitchBendCollisions(w: Byte, v: Byte)
    ensures PitchBend(w) == PitchBend(v) <==> w % 64 == v % 64
  {
    PitchBendBytes(w);
    PitchBendBytes(v);
    ShiftedResidues(w, v);
  }

  /** Shifting by 16 keeps two values' residues modulo 64 equal or different. */
  lemma ShiftedResidues(w: int, v: int)
    ensures (w + 16) % 64 == (v + 16) % 64 <==> w % 64 == v % 64
  {
    Shift16(w);
    Shift16(v);
  }

  /** The residue modulo 64 after adding 16, from the residue before. */
  lemma Shift16(x: int)
    ensures (x + 16) % 64 == if x % 64 < 48 then x % 64 + 16 else x % 64 - 48
  {
    var q := x / 64;
    assert x == 64 * q + x % 64;
    if x % 64 < 48 {
      assert x + 16 == 64 * q + (x % 64 + 16);
    } else {
      assert x + 16 == 64 * (q + 1) + (x % 64 - 48);
    }
  }

  /** The kind of message a status byte and velocity announce. */
  datatype Kind = NoteOnKind | NoteOffKind | PitchBendKind | OtherKind

  /**
   The kind the status byte and velocity announce; a Note On at velocity 0 is
   a Note Off. The data bytes are not inspected: see `DataBytesValid`.
   */
  function KindOf(m: MidiMsg): Kind {
    if m.status == NoteOnStatus then (if m.data2 == 0 then NoteOffKind else NoteOnKind)
    else if m.status == PitchBendStatus then PitchBendKind
    else OtherKind
  }

  /**
   MIDI 1.0 data bytes have bit 7 clear. A byte of 0x80 or more is a status
   byte, so a receiver reads the message differently from what `KindOf` says.
   */
  predicate DataBytesValid(m: MidiMsg) {
    m.data1 < 0x80 && m.data2 < 0x80
  }

  /** A Note On is valid exactly when its pitch is below 0x80. */
  lemma NoteOnValid(g: Guitar)
    ensures DataBytesValid(NoteOn(g)) <==> NotePitch(g) < 0x80
  {
  }

  /** A Note Off is valid exactly when `last_pitch` is below 0x80. */
  lemma NoteOffValid(lastPitch: Byte)
    ensures DataBytesValid(NoteOff(lastPitch)) <==> lastPitch < 0x80
  {
  }

  /** A Pitch Bend is valid exactly when (whammy + 16) mod 64 < 32. */
  lemma PitchBendValid(whammie: Byte)
    ensures DataBytesValid(PitchBend(whammie)) <==> (whammie + 16) % 64 < 32
  {
    PitchBendBytes(whammie);
  }

  /**
   Messages the driver can send that announce one kind but are not valid: yellow
   and orange at offset 4 give Note On `90 80 40`, and whammy 16 gives Pitch
   Bend `E0 00 80`.
   */
  lemma InvalidDataBytes()
    ensures var g := Guitar(Buttons(false, false, true, false, true, false, true, false, false), 0, 4);
      NotePitch(g) == 0x80 && KindOf(NoteOn(g)) == NoteOnKind && !DataBytesValid(NoteOn(g))
    ensures KindOf(PitchBend(16)) == PitchBendKind && !DataBytesValid(PitchBend(16))
  {
    var g := Guitar(Buttons(false, false, true, false, true, false, true, false, false), 0, 4);
    FretsAreFretButtons(g.button);
    NotePitchOneWrap(g);
    PitchBendBytes(16);
  }

  /** The number of messages of kind `k` in a stream. */
  function Count(msgs: seq<MidiMsg>, k: Kind): nat {
    if msgs == [] then 0
    else Count(msgs[..|msgs| - 1], k) + Ind(KindOf(msgs[|msgs| - 1]) == k)
  }

  /** Counting distributes over concatenation. */
  lemma {:induction false} CountAppend(a: seq<MidiMsg>, b: seq<MidiMsg>, k: Kind)
    ensures Count(a + b, k) == Count(a, k) + Count(b, k)
  {
    if b == [] {
      assert a + b == a;
    } else {
      assert (a + b)[..|a + b| - 1] == a + b[..|b| - 1];
      CountAppend(a, b[..|b| - 1], k);
    }
  }

  /**
   The pitch of the most recent Note On in the stream, or `initial` if there
   is none. This is what `last_pitch` holds; that note may already have been
   turned off.
   */
  function LatestNoteOn(msgs: seq<MidiMsg>, initial: Byte): Byte {
    if msgs == [] then initial
    else if KindOf(msgs[|msgs| - 1]) == NoteOnKind then msgs[|msgs| - 1].data1
    else LatestNoteOn(msgs[..|msgs| - 1], initial)
  }

  /**
   Every Note Off in the stream carries the pitch of the latest Note On
   before it, or `initial` when there is none.
   */
  predicate OffsCarryLatest(msgs: seq<MidiMsg>, initial: Byte) {
    forall i :: 0 <= i < |msgs| && KindOf(msgs[i]) == NoteOffKind ==> msgs[i].data1 == LatestNoteOn(msgs[..i], initial)
  }

  /** The latest Note On after two streams is the second's, started from the first's. */
  lemma {:induction false} LatestNoteOnAppend(a: seq<MidiMsg>, b: seq<MidiMsg>, initial: Byte)
    ensures LatestNoteOn(a + b, initial) == LatestNoteOn(b, LatestNoteOn(a, initial))
  {
    if b == [] {
      assert a + b == a;
    } else {
      assert (a + b)[..|a + b| - 1] == a + b[..|b| - 1];
      LatestNoteOnAppend(a, b[..|b| - 1], initial);
    }
  }

  /** Note Offs match in a concatenation exactly when they match in each part, the second started where the first ends. */
  lemma OffsCarryLatestAppend(a: seq<MidiMsg>, b: seq<MidiMsg>, initial: Byte)
    ensures OffsCarryLatest(a + b, initial) <==> OffsCarryLatest(a, initial) && OffsCarryLatest(b, LatestNoteOn(a, initial))
  {
    var ab := a + b;
    forall i | 0 <= i < |b|
      ensures LatestNoteOn(ab[..|a| + i], initial) == LatestNoteOn(b[..i], LatestNoteOn(a, initial))
    {
      assert ab[..|a| + i] == a + b[..i];
      LatestNoteOnAppend(a, b[..i], initial);
    }
    forall i | 0 <= i < |a|
      ensures ab[..i] == a[..i] && ab[i] == a[i]
    {
    }
    if OffsCarryLatest(ab, initial) {
      forall i | 0 <= i < |b| && KindOf(b[i]) == NoteOffKind
        ensures b[i].data1 == LatestNoteOn(b[..i], LatestNoteOn(a, initial))
      {
        assert ab[|a| + i] == b[i];
      }
    }
    if OffsCarryLatest(a, initial) && OffsCarryLatest(b, LatestNoteOn(a, initial)) {
      forall j | 0 <= j < |ab| && KindOf(ab[j]) == NoteOffKind
        ensures ab[j].data1 == LatestNoteOn(ab[..j], initial)
      {
        if j >= |a| {
          assert ab[j] == b[j - |a|];
        }
      }
    }
  }
}

=== FILE: scenarios.dfy ===
/**
 Worked runs of the polling loop on concrete readings. Each frame is taken
 apart with `StepOf`: the decoded state, the offset update and the emitted
 messages are fixed one at a time. `RunOfOne` and `RunExtend` then string
 the frames together, one reading at a time.
 */
module Scenarios {
  import opened Bytes
  import opened Guitar
  import opened Midi
  import opened Emitter
  import opened Driver

  /** Strum down with no fret: `axis.z` at 191, whammy at rest. */
  const StrumDownReading := RawReading(0, false, WhammyBias, StrumDownAxis)
  /** Nothing pressed: `axis.z` with bits 4 and 2 set, whammy at rest. */
  const AtRestReading := RawReading(0, false, WhammyBias, 0x14)
  /** Green held on strum down. */
  const GreenDownReading := RawReading(0x10, false, WhammyBias, StrumDownAxis)
  /** Red, strum up and strum down together. */
  const RedPluckReading := RawReading(0x40, true, WhammyBias, StrumDownAxis)

  /** Strum down alone, offset 0, whammy 0. */
  const StrumDownHeld := Zeroed.(button := Zeroed.button.(strumDown := true))
  /** Green on strum down. */
  const GreenDown := Zeroed.(button := Zeroed.button.(green := true, strumDown := true))
  /** Red on strum down, with strum up pressed. */
  const RedPluck := Zeroed.(button := Zeroed.button.(red := true, strumUp := true, strumDown := true))

  /** With neither plus nor minus newly pressed, the offset update changes nothing. */
  lemma NoOffsetEdge(cur: Guitar, prev: Guitar)
    requires !Rises(cur.button.plus, prev.button.plus) && !Rises(cur.button.minus, prev.button.minus)
    ensures UpdatePitchOffset(cur, prev) == cur
  {
  }

  /** A frame with no plus or minus edge is fixed by what the reading decodes to and what the emitter sends. */
  lemma QuietFrame(raw: RawReading, prev: Guitar, lastPitch: Byte, cur: Guitar, e: Emitted)
    requires Decode(raw, prev) == cur
    requires !Rises(cur.button.plus, prev.button.plus) && !Rises(cur.button.minus, prev.button.minus)
    requires SendMidiEvents(cur, prev, lastPitch) == e
    ensures Step(raw, prev, lastPitch) == Frame(cur, e.lastPitch, e.msgs, MirrorLeds(cur))
  {
    NoOffsetEdge(cur, prev);
    StepOf(raw, prev, lastPitch, cur, e);
  }

  /** Appending to a one-element display gives the two-element display. */
  lemma AppendOne<T>(xs: seq<T>, y: T)
    requires |xs| == 1
    ensures xs + [y] == [xs[0], y]
  {
  }

  /** Appending to a two-element display gives the three-element display. */
  lemma AppendTwo<T>(x: T, y: T, z: T)
    ensures [x, y] + [z] == [x, y, z]
  {
  }

  /** Joining displays of one, two and one elements gives the four-element display. */
  lemma JoinOneTwoOne<T>(a: T, b: T, c: T, d: T)
    ensures [a] + [b, c] + [d] == [a, b, c, d]
  {
  }

  /** One reading from the start, given its frame. */
  lemma RunOfOne(a: RawReading, f1: Frame)
    requires Step(a, Zeroed, InitialLastPitch) == f1
    ensures Run([a]) == Trace(LoopState(f1.cur, f1.cur, f1.lastPitch), f1.msgs, [f1.leds])
  {
    assert [a][..0] == [];
  }

  /** Strum down alone, from rest: the held note starts at middle C with velocity 64. */
  const PressStep := Frame(StrumDownHeld, 0x3c, [MidiMsg(0x90, 0x3c, 0x40)], MirrorLeds(StrumDownHeld))
  /** Releasing strum down ends the held note with a Note Off for middle C. */
  const ReleaseStep := Frame(Zeroed, 0x3c, [MidiMsg(0x90, 0x3c, 0x00)], MirrorLeds(Zeroed))

  lemma PressFrame()
    ensures Step(StrumDownReading, Zeroed, InitialLastPitch) == PressStep
  {
    DecodeStrumDown();
    PressEmits();
    QuietFrame(StrumDownReading, Zeroed, InitialLastPitch, StrumDownHeld, Emitted(PressStep.msgs, 0x3c));
  }

  lemma PressEmits()
    ensures SendMidiEvents(StrumDownHeld, Zeroed, InitialLastPitch) == Emitted([MidiMsg(0x90, 0x3c, 0x40)], 0x3c)
  {
    FretsAreFretButtons(StrumDownHeld.button);
    assert NotePitch(StrumDownHeld) == 0x3c;
    StrumDownOnly(StrumDownHeld, Zeroed, InitialLastPitch);
  }

  lemma ReleaseFrame()
    ensures Step(AtRestReading, StrumDownHeld, 0x3c) == ReleaseStep
  {
    AtRestDecodes(StrumDownHeld);
    StrumDownOnly(Zeroed, StrumDownHeld, 0x3c);
    QuietFrame(AtRestReading, StrumDownHeld, 0x3c, Zeroed, Emitted(ReleaseStep.msgs, 0x3c));
  }

  /** The at-rest reading decodes to the zeroed state over any prior state with offset 0. */
  lemma AtRestDecodes(prior: Guitar)
    requires prior.pitchOffset == 0
    ensures Decode(AtRestReading, prior) == Zeroed
  {
    DecodeAtRest();
    DecodeIgnoresPrior(AtRestReading, prior, Zeroed);
  }

  /** The first frame of the strum-down run on its own. */
  lemma PressRun()
    ensures Run([StrumDownReading]) == Trace(LoopState(StrumDownHeld, StrumDownHeld, 0x3c), PressStep.msgs, [PressStep.leds])
  {
    PressFrame();
    RunOfOne(StrumDownReading, PressStep);
  }

  /**
   Press strum down with no fret, then let it go: one Note On for middle C at
   velocity 64, then one Note Off for the same pitch, and the loop is back at rest.
   */
  lemma StrumDownScenario()
    ensures Run([StrumDownReading, AtRestReading]).out == [MidiMsg(0x90, 0x3c, 0x40), MidiMsg(0x90, 0x3c, 0x00)]
    ensures Run([StrumDownReading, AtRestReading]).state == LoopState(Zeroed, Zeroed, 0x3c)
  {
    var readings := [StrumDownReading];
    PressRun();
    ReleaseFrame();
    RunExtend(readings, AtRestReading, StrumDownHeld, 0x3c, PressStep.msgs, [PressStep.leds], ReleaseStep);
    AppendOne(readings, AtRestReading);
    AppendOne(PressStep.msgs, MidiMsg(0x90, 0x3c, 0x00));
  }

  /** Green on strum down, from rest: Note On for middle C plus one. */
  const GreenDownStep := Frame(GreenDown, 0x3d, [MidiMsg(0x90, 0x3d, 0x40)], MirrorLeds(GreenDown))
  /** Red plucked while green is held: the pluck's Note On and Note Off for middle C plus two. */
  const RedPluckStep := Frame(RedPluck, 0x3e, [MidiMsg(0x90, 0x3e, 0x40), MidiMsg(0x90, 0x3e, 0x00)], MirrorLeds(RedPluck))
  /** Everything let go after the pluck: a Note Off for the plucked pitch. */
  const PluckReleaseStep := Frame(Zeroed, 0x3e, [MidiMsg(0x90, 0x3e, 0x00)], MirrorLeds(Zeroed))

  lemma GreenDownFrame()
    ensures Step(GreenDownReading, Zeroed, InitialLastPitch) == GreenDownStep
  {
    GreenDownDecodes();
    GreenDownEmits();
    QuietFrame(GreenDownReading, Zeroed, InitialLastPitch, GreenDown, Emitted(GreenDownStep.msgs, 0x3d));
  }

  lemma GreenDownDecodes()
    ensures Decode(GreenDownReading, Zeroed) == GreenDown
  {
  }

  lemma GreenDownEmits()
    ensures SendMidiEvents(GreenDown, Zeroed, InitialLastPitch) == Emitted([MidiMsg(0x90, 0x3d, 0x40)], 0x3d)
  {
    FretsAreFretButtons(GreenDown.button);
    assert NotePitch(GreenDown) == 0x3d;
    StrumDownOnly(GreenDown, Zeroed, InitialLastPitch);
  }

  /** Plucking red while green is held on strum down moves `last_pitch` to the plucked pitch. */
  lemma RedPluckFrame()
    ensures Step(RedPluckReading, GreenDown, 0x3d) == RedPluckStep
  {
    RedPluckDecodes();
    RedPluckEmits();
    QuietFrame(RedPluckReading, GreenDown, 0x3d, RedPluck, Emitted(RedPluckStep.msgs, 0x3e));
  }

  lemma RedPluckDecodes()
    ensures Decode(RedPluckReading, GreenDown) == RedPluck
  {
  }

  lemma RedPluckEmits()
    ensures SendMidiEvents(RedPluck, GreenDown, 0x3d)
            == Emitted([MidiMsg(0x90, 0x3e, 0x40), MidiMsg(0x90, 0x3e, 0x00)], 0x3e)
  {
    FretsAreFretButtons(RedPluck.button);
    assert NotePitch(RedPluck) == 0x3e;
    PluckOnly(RedPluck, GreenDown, 0x3d);
  }

  /** Letting everything go after the pluck: the Note Off is for the plucked pitch. */
  lemma PluckReleaseFrame()
    ensures Step(AtRestReading, RedPluck, 0x3e) == PluckReleaseStep
  {
    AtRestDecodes(RedPluck);
    StrumDownOnly(Zeroed, RedPluck, 0x3e);
    QuietFrame(AtRestReading, RedPluck, 0x3e, Zeroed, Emitted(PluckReleaseStep.msgs, 0x3e));
  }

  /** The first frame of the stranded-note run on its own. */
  lemma GreenDownRun()
    ensures Run([GreenDownReading]) == Trace(LoopState(GreenDown, GreenDown, 0x3d), GreenDownStep.msgs, [GreenDownStep.leds])
  {
    GreenDownFrame();
    RunOfOne(GreenDownReading, GreenDownStep);
  }

  /** The first two frames of the stranded-note run. */
  lemma RedPluckRun()
    ensures Run([GreenDownReading, RedPluckReading])
            == Trace(LoopState(RedPluck, RedPluck, 0x3e), GreenDownStep.msgs + RedPluckStep.msgs, [GreenDownStep.leds, RedPluckStep.leds])
  {
    GreenDownRun();
    RedPluckFrame();
    RunExtend([GreenDownReading], RedPluckReading, GreenDown, 0x3d, GreenDownStep.msgs, [GreenDownStep.leds], RedPluckStep);
    AppendOne([GreenDownReading], RedPluckReading);
    AppendOne([GreenDownStep.leds], RedPluckStep.leds);
  }

  /**
   A held note can be left sounding. Hold green on strum down, pluck red with
   strum up, then let everything go: the pluck moves `last_pitch` to red's
   pitch, so the release turns off 0x3e a second time and 0x3d never gets a
   Note Off, although with strum down released the Note On and Note Off
   counts are equal.
   */
  lemma StrandedNoteScenario()
    ensures Run([GreenDownReading, RedPluckReading, AtRestReading]).out
            == [MidiMsg(0x90, 0x3d, 0x40), MidiMsg(0x90, 0x3e, 0x40), MidiMsg(0x90, 0x3e, 0x00), MidiMsg(0x90, 0x3e, 0x00)]
    ensures Run([GreenDownReading, RedPluckReading, AtRestReading]).state.cur == Zeroed
  {
    var readings := [GreenDownReading, RedPluckReading];
    RedPluckRun();
    PluckReleaseFrame();
    RunExtend(readings, AtRestReading, RedPluck, 0x3e, GreenDownStep.msgs + RedPluckStep.msgs,
              [GreenDownStep.leds, RedPluckStep.leds], PluckReleaseStep);
    AppendTwo(GreenDownReading, RedPluckReading, AtRestReading);
    JoinOneTwoOne(MidiMsg(0x90, 0x3d, 0x40), MidiMsg(0x90, 0x3e, 0x40), MidiMsg(0x90, 0x3e, 0x00), MidiMsg(0x90, 0x3e, 0x00));
  }
}
